=== FILE: README.md ===
# imi_mm_changelanguage: the decision logic of the changelanguage observer

`ImiMMChangeLanguageObserver` connects three parts of a Contao site. Contao renders the pages. MetaModels stores translated items. The changelanguage extension builds the language switcher. On a MetaModels reader page, the observer finds which MetaModels the page lists. It takes the item alias (`auto_item`) from the request. It then tells the language switcher what the entry for another language must be:

- the same alias, when the language is the current one;
- the alias in the target language, with the fallback language used when the target has none;
- no entry at all;
- the parent page, when the item is not published in that language.

This project models the decisions the class makes. The database, the MetaModels factory and the changelanguage event are not modelled. What they would answer is passed in as plain data:

- `PageContext` holds the layout modules, the published content of the `main` column, and the module, model-name and filter lookups.
- `MetaModel` and `Attribute` hold the fallback language, the `ITranslated` flag, the alias search and the translated data.
- `Globals` holds the current language, the alias and the configured overrides.

Modules:

- `Php`: PHP arrays with string keys. They are insertion-ordered, and a write to a present key keeps that key's slot (`Put`). Also `array_merge`, the string truthiness of PHP, and the `foreach … continue … return` pattern (`FirstResult`). The order of the merged array matters: V3 and V2 act on the first qualifying pair.
- `FilterAttribute`: `detectFilterAttribute`.
- `CurrentMetamodels`: `getCurrentMetamodels`. It is written as nested loops (`GetCurrentMetamodels`) and proved equal to `Scan`, which applies the sequence of writes `Writes(ctx)` in order.
- `Request`: the globals and the override merge.
- `TranslateV3`: `translateMMUrlsV3`. The effect on the event is a `NavigationChange`: `Unchanged`, `SetItems`, `SkipInNavigation`, `TargetParentPage`, `UnknownModel` or `UntranslatedPublished`. The loop (`FirstChange`) is proved equal to `FirstResult` over `ResolvePair`, and the handler (`TranslateUrlsV3`) is proved equal to `DecideV3`.
- `TranslateV2`: `translateMMUrlsV2`. The returned parameters, the `addToNavigation` flag and the `useAutoItem` write are one `HookResult`. The loop (`ResolvePairs`) is proved equal to `Conclude` of `FirstResult` over `ResolvePairV2`, and the hook (`TranslateUrlsV2`) is proved equal to `DecideV2`.
- `RequestUri`: the request-path handling of V2 (`str_replace`, `explode`).

Four behaviours of the source worth knowing:

- V2 does not stop early when no model was detected, so configured overrides alone can make V2 act. V3 stops before the merge, so overrides alone never make V3 act.
- In V2 the segment written to `useAutoItem` is the first segment left after the language prefix is dropped. It is not the language code.
- A MetaModels content element is skipped only when its model id has no truthy name. The filter id is not checked; an unknown filter simply binds nothing.
- A filter whose `auto_item` parameter has no attribute at its position makes `detectFilterAttribute` return `null`, and `null` is not `false`, so the model is still recorded (lines 25-28 and 66). Its pairs are passed over later (a model has no attribute named `""`), but the map is not empty, so with the target language equal to the current one V3 still sets `items`. The model writes `null` as the attribute name `""`, which is what PHP reads when `null` is used as an array key (`NullAttribute`).

## Model

| member | source | states |
|---|---|---|
| `FilterAttribute.FirstIndexOf` | contao/classes/ImiMMChangeLanguageObserver.php:25 | `array_search`: the index returned holds the value, and no earlier index does; None exactly when the value is absent |
| `FilterAttribute.AttributeAt` | contao/classes/ImiMMChangeLanguageObserver.php:27 | `$attributes[$i]`, with the null attribute name past the end of the list (a definition; `DetectAtFirstAutoItem` states both cases) |
| `FilterAttribute.DetectFilterAttribute` | contao/classes/ImiMMChangeLanguageObserver.php:15-32 | "not found" exactly when no parameter is `auto_item`; otherwise the attribute at the first `auto_item` position, the null attribute name `""` when the attribute list is too short |
| `FilterAttribute.DetectAtFirstAutoItem` | contao/classes/ImiMMChangeLanguageObserver.php:23-29 | converse: the first `auto_item` position decides the result, position 0 counts as found, and a position past the attribute list gives the null attribute name |
| `Php.Truthy` | contao/classes/ImiMMChangeLanguageObserver.php:176 | PHP's reading of a string as a boolean: only `""` and `"0"` are false (a definition, used for the published flag and the model-name test) |
| `Php.Find` | contao/classes/ImiMMChangeLanguageObserver.php:67 | the slot found holds the key and no earlier slot does; None exactly when the key is absent |
| `Php.Get` | contao/classes/ImiMMChangeLanguageObserver.php:67 | reading `$a[$k]`, how the lemmas observe the map the writes at lines 67 and 141 build: unset exactly when `k` is not a key, and a value read is stored under `k` |
| `Php.Put` | contao/classes/ImiMMChangeLanguageObserver.php:67 | `$a[$k] = $v` (a definition; `PutGet` and `PutShape` state what it does) |
| `Php.PutGet` | contao/classes/ImiMMChangeLanguageObserver.php:67 | `$a[$k] = $v` makes `k` read `v` and leaves every other key's value unchanged |
| `Php.PutShape` | contao/classes/ImiMMChangeLanguageObserver.php:67 | a write keeps keys distinct; a present key keeps its place and a new one is appended |
| `Php.PutAll` | contao/classes/ImiMMChangeLanguageObserver.php:61-102 | a run of writes applied in order (a definition; `PutAllGet` and `PutAllShape` state what it does) |
| `Php.LastWrite` | contao/classes/ImiMMChangeLanguageObserver.php:61-102 | reference "last write wins": None exactly when no write has the key; otherwise the value of a write with no later write to that key |
| `Php.LastWriteAt` | contao/classes/ImiMMChangeLanguageObserver.php:61-102 | converse: the last write to a key is the value LastWrite gives |
| `Php.LastWriteAppend` | contao/classes/ImiMMChangeLanguageObserver.php:61-102 | for writes split in two, a write in the later part wins over the earlier part |
| `Php.LastWriteAround` | contao/classes/ImiMMChangeLanguageObserver.php:61-102 | a write with writes before and after it is the last write to its key unless a write after it has that key |
| `Php.LastWriteDistinct` | contao/classes/ImiMMChangeLanguageObserver.php:141 | in an array with distinct keys, the last write to a key is its stored value |
| `Php.PutAllGet` | contao/classes/ImiMMChangeLanguageObserver.php:61-102 | after a run of writes, a key reads as its last write, or as in the starting array when it was never written |
| `Php.NewKeys` | contao/classes/ImiMMChangeLanguageObserver.php:141 | the keys a run of writes appends: exactly the written keys not already present, each once, in the order of their first write |
| `Php.PutAllShape` | contao/classes/ImiMMChangeLanguageObserver.php:61-102 | writes keep keys distinct; the keys already present stay first and in order, followed by the new keys in the order of their first write; the result is empty only when nothing was there and nothing was written |
| `Php.ArrayMerge` | contao/classes/ImiMMChangeLanguageObserver.php:141 | `array_merge` for string keys: the first array's keys stay first and in order, followed by the second array's other keys in their order |
| `Php.ArrayMergeGet` | contao/classes/ImiMMChangeLanguageObserver.php:141 | `array_merge`: a key of the second array takes its value, every other key keeps the first array's value, and the key order is the first array's followed by the second array's new keys |
| `Php.FirstResult` | contao/classes/ImiMMChangeLanguageObserver.php:143-202 | None exactly when every pair is passed over; otherwise the result of some pair, with every earlier pair passed over |
| `Php.FirstResultStep` | contao/classes/ImiMMChangeLanguageObserver.php:143-202 | one step of the `foreach`: from a position on, the result is that pair's when it gives one, else the result from the next position on |
| `Php.FirstResultIgnoresRest` | contao/classes/ImiMMChangeLanguageObserver.php:143-202 | once a pair has given a result, whatever follows it is never consulted |
| `DataLayer.DataWithFallback` | contao/classes/ImiMMChangeLanguageObserver.php:168-171 | the data in the requested language, else in the fallback language (a definition; `PublishedAndValueResolution` states its use) |
| `Request.AliasMissing` | contao/classes/ImiMMChangeLanguageObserver.php:129 | `$alias == null`: no alias, or the empty string (a definition) |
| `Request.ApplyOverrides` | contao/classes/ImiMMChangeLanguageObserver.php:140-142 | the detected map with the configured overrides merged over it, when they are set (a definition; `OverridesWin` states what it gives) |
| `Request.OverridesWin` | contao/classes/ImiMMChangeLanguageObserver.php:140-142 | an override's model name maps to the override's attribute; a name found only by detection keeps its detected attribute; the detected names stay first and in order, followed by the names only the overrides give, in their configured order |
| `CurrentMetamodels.FilterOf` | contao/classes/ImiMMChangeLanguageObserver.php:18-20 | an unknown filter id gives a collection that binds nothing |
| `CurrentMetamodels.ModelKey` | contao/classes/ImiMMChangeLanguageObserver.php:64 | `$curModel[$modelName]` with an unresolved name uses the key `""` (a definition) |
| `CurrentMetamodels.ModuleWrites` | contao/classes/ImiMMChangeLanguageObserver.php:62-69 | a module writes when, and only when, it exists, is a MetaModels listing and its filter binds `auto_item`; it then writes exactly one entry, its model name (`""` for an unknown model id) with that attribute |
| `CurrentMetamodels.ContentWrites` | contao/classes/ImiMMChangeLanguageObserver.php:78-98 | an element of type `module` writes what that module would write from the layout; any other element writes when, and only when, its model id has a truthy name and its filter binds `auto_item`, and then exactly that name with that attribute |
| `CurrentMetamodels.EmbeddedModuleAsLayoutModule` | contao/classes/ImiMMChangeLanguageObserver.php:78-88 | any content element of type `module` contributes what its module contributes in the layout, whatever its own model and filter fields hold |
| `CurrentMetamodels.Writes` | contao/classes/ImiMMChangeLanguageObserver.php:61-102 | all writes of the scan: the layout modules' first, then the articles' content, in order (a definition) |
| `CurrentMetamodels.Scan` | contao/classes/ImiMMChangeLanguageObserver.php:52-105 | the map the scan builds: the writes applied in order to an empty array (a definition; `ScanLookup` states what it holds) |
| `CurrentMetamodels.RecordModule` | contao/classes/ImiMMChangeLanguageObserver.php:61-70 | adds the module's write to the array being built |
| `CurrentMetamodels.RecordContent` | contao/classes/ImiMMChangeLanguageObserver.php:77-99 | adds the content element's write to the array being built; skips it when its model has no name |
| `CurrentMetamodels.RecordArticle` | contao/classes/ImiMMChangeLanguageObserver.php:76-99 | adds the writes of one article's content elements, in order |
| `CurrentMetamodels.GetCurrentMetamodels` | contao/classes/ImiMMChangeLanguageObserver.php:52-105 | the nested loops build exactly `Scan`: layout-module writes, then article-content writes, applied in order |
| `CurrentMetamodels.PutAllAppend` | contao/classes/ImiMMChangeLanguageObserver.php:61-102 | applying two runs of writes together equals applying them one after the other |
| `CurrentMetamodels.ScanLookup` | contao/classes/ImiMMChangeLanguageObserver.php:55-104 | the result has one slot per model name; a name maps to the attribute of its last write and is present only when some element wrote it |
| `CurrentMetamodels.ScanContentAfterLayout` | contao/classes/ImiMMChangeLanguageObserver.php:61-102 | layout modules come before article content: a name written by content keeps the content's attribute, otherwise the layout's |
| `CurrentMetamodels.ScanEmpty` | contao/classes/ImiMMChangeLanguageObserver.php:55-104 | the result is the empty array exactly when no element wrote anything |
| `CurrentMetamodels.LayoutWritesAt` | contao/classes/ImiMMChangeLanguageObserver.php:61-70 | the layout's writes are those of the modules before a position, that module's, then those after it |
| `CurrentMetamodels.LayoutListingWrite` | contao/classes/ImiMMChangeLanguageObserver.php:61-102 | the last write to a layout listing's model is that listing's attribute unless a later layout module or an article element writes the model |
| `CurrentMetamodels.LayoutListingInScan` | contao/classes/ImiMMChangeLanguageObserver.php:61-104 | a layout listing whose filter binds `auto_item` puts its model into the result, mapped to its attribute unless a later module or element writes that model |
| `TranslateV3.UnpublishedFor` | contao/classes/ImiMMChangeLanguageObserver.php:165-176 | the published flag, read in the target language and else the fallback one, is present and false (a definition) |
| `TranslateV3.ResolvePair` | contao/classes/ImiMMChangeLanguageObserver.php:144-200 | one pass of the loop (a definition; `PassedOverPairs` and `PublishedAndValueResolution` state what it gives) |
| `TranslateV3.ResolveOne` | contao/classes/ImiMMChangeLanguageObserver.php:144-200 | the loop body, with `continue` as None, gives exactly `ResolvePair` |
| `TranslateV3.FirstChange` | contao/classes/ImiMMChangeLanguageObserver.php:143-202 | the loop over pairs returns the first pair's change (`continue`, `return` as in the source), or nothing: exactly `FirstResult` over `ResolvePair` |
| `TranslateV3.DecideV3` | contao/classes/ImiMMChangeLanguageObserver.php:113-203 | the whole handler's decision; the event changes only when some model was detected and there is an alias |
| `TranslateV3.TranslateUrlsV3` | contao/classes/ImiMMChangeLanguageObserver.php:113-203 | the handler's effect on the event is `DecideV3` of the scanned map |
| `TranslateV3.NoModelsOrNoAliasIsNoop` | contao/classes/ImiMMChangeLanguageObserver.php:122-131 | with no detected model or no alias the event is unchanged, whatever the overrides hold |
| `TranslateV3.SameLanguageSetsAlias` | contao/classes/ImiMMChangeLanguageObserver.php:133-137 | target language = current language: `items` is set to the alias, and the outcome does not depend on any model |
| `TranslateV3.PassedOverPairs` | contao/classes/ImiMMChangeLanguageObserver.php:143-162 | a pair is passed over exactly when its attribute is absent or not translated, or the alias search in [fallback, current] finds no id; a pair never yields "unchanged" |
| `TranslateV3.PublishedAndValueResolution` | contao/classes/ImiMMChangeLanguageObserver.php:164-200 | for a qualifying pair, a `published` attribute that is not translated ends in the failed `getTranslatedDataFor` call (`UntranslatedPublished`). Otherwise the published flag is read in the target language, else the fallback one. A present false flag gives the parent page, and `items` is not set. Otherwise the value is read the same way: none gives skip, a value sets `items` to it |
| `TranslateV3.FirstQualifyingPairDecides` | contao/classes/ImiMMChangeLanguageObserver.php:139-202 | over the merged pairs the event is unchanged exactly when no pair qualifies; otherwise the outcome is that of the first qualifying pair |
| `TranslateV3.LaterPairsIgnored` | contao/classes/ImiMMChangeLanguageObserver.php:143-202 | pairs after the first qualifying one do not affect the outcome |
| `TranslateV2.ResolvePairV2` | contao/classes/ImiMMChangeLanguageObserver.php:234-254 | one pass of the loop (a definition; `PairResolutionV2` states what it gives) |
| `TranslateV2.ResolveOneV2` | contao/classes/ImiMMChangeLanguageObserver.php:234-254 | the loop body, with `continue` as None, gives exactly `ResolvePairV2` |
| `TranslateV2.Conclude` | contao/classes/ImiMMChangeLanguageObserver.php:246-258 | what the hook returns for the loop's outcome (a definition; `MatchRewritesUrl`, `MissingDataClearsFlag`, `UnknownModelIsFatal` and `OnlyUrlChanges` state each case) |
| `TranslateV2.ResolvePairs` | contao/classes/ImiMMChangeLanguageObserver.php:233-258 | the loop over pairs returns what `Conclude` gives for the first qualifying pair |
| `TranslateV2.DecideV2` | contao/classes/ImiMMChangeLanguageObserver.php:210-259 | the whole hook's decision; anything but the unchanged parameters with the flag kept and no configuration write needs an alias |
| `TranslateV2.TranslateUrlsV2` | contao/classes/ImiMMChangeLanguageObserver.php:210-259 | the hook's result is `DecideV2` of the scanned map |
| `TranslateV2.NoAliasUnchanged` | contao/classes/ImiMMChangeLanguageObserver.php:222-225 | with no alias the parameters come back unchanged, the flag is kept and nothing is written to the configuration |
| `TranslateV2.PairResolutionV2` | contao/classes/ImiMMChangeLanguageObserver.php:233-254 | a pair is passed over exactly when its attribute is absent or not translated, or the search in the current language alone finds no id; data is read in the requested language alone |
| `TranslateV2.OnlyUrlChanges` | contao/classes/ImiMMChangeLanguageObserver.php:244-258 | only `url` ever changes, and it becomes a one-element list; a cleared `addToNavigation` comes with unchanged parameters; with no qualifying pair nothing changes |
| `TranslateV2.MatchRewritesUrl` | contao/classes/ImiMMChangeLanguageObserver.php:249-254 | a match sets `url` to `[value]` and writes the first language-stripped path segment to `useAutoItem` |
| `TranslateV2.MissingDataClearsFlag` | contao/classes/ImiMMChangeLanguageObserver.php:246-248 | a first qualifying pair with no data in the requested language clears `addToNavigation` and returns the parameters unchanged, with no configuration write |
| `TranslateV2.UnknownModelIsFatal` | contao/classes/ImiMMChangeLanguageObserver.php:234-236 | a first pair whose model name the factory does not know ends in the fatal call on `null`, and that name is indeed unknown |
| `RequestUri.RemoveAll` | contao/classes/ImiMMChangeLanguageObserver.php:213 | `str_replace('index.php/', '', …)` never lengthens the request |
| `RequestUri.RemoveAllAbsent` | contao/classes/ImiMMChangeLanguageObserver.php:213 | a request with no `index.php/` is left as it is |
| `RequestUri.RemoveAllLeading` | contao/classes/ImiMMChangeLanguageObserver.php:213 | a leading `index.php/` is removed whole, and removal goes on after it |
| `RequestUri.RemoveAllKeepsClean` | contao/classes/ImiMMChangeLanguageObserver.php:213 | a part holding no `index.php/`, followed by a character that `index.php/` does not contain, is kept as it is |
| `RequestUri.BeforeFirst` | contao/classes/ImiMMChangeLanguageObserver.php:213 | the query string is dropped: the result is a prefix without `?`, and a shorter result stops at a `?` |
| `RequestUri.BeforeFirstWhole` | contao/classes/ImiMMChangeLanguageObserver.php:213 | a string without `?` is kept whole |
| `RequestUri.BeforeFirstAt` | contao/classes/ImiMMChangeLanguageObserver.php:213-215 | the part before the first separator is the first piece |
| `RequestUri.StripScriptAndQuery` | contao/classes/ImiMMChangeLanguageObserver.php:213 | a script prefix, a clean path and a query string: cleaning leaves exactly the path |
| `RequestUri.StripIndexAndQuery` | contao/classes/ImiMMChangeLanguageObserver.php:213 | `index.php/` + path + `?` + query cleans to the path |
| `RequestUri.Join` | contao/classes/ImiMMChangeLanguageObserver.php:215 | `implode` (a definition; `Split` and `SplitJoin` state the round trip) |
| `RequestUri.Split` | contao/classes/ImiMMChangeLanguageObserver.php:215 | `explode('/', …)` gives at least one piece, no piece contains `/`, and joining the pieces gives the input back |
| `RequestUri.SplitJoin` | contao/classes/ImiMMChangeLanguageObserver.php:215 | splitting joined pieces gives the pieces back |
| `RequestUri.UriSegments` | contao/classes/ImiMMChangeLanguageObserver.php:213-220 | `$uri` after the optional language shift (a definition; the path lemmas state what it gives) |
| `RequestUri.FirstSegment` | contao/classes/ImiMMChangeLanguageObserver.php:252 | `$uri[0]`, null when there is none (a definition; `SegmentPresence` states when it exists) |
| `RequestUri.PathSegments` | contao/classes/ImiMMChangeLanguageObserver.php:213-220 | for a clean path `lang/page/…` the segment is `page` with language prefixes and `lang` without |
| `RequestUri.IndexPathSegments` | contao/classes/ImiMMChangeLanguageObserver.php:213-220 | for `index.php/lang/page/…?query` the segments come back whole; the segment is `page` with language prefixes and `lang` without |
| `RequestUri.SegmentPresence` | contao/classes/ImiMMChangeLanguageObserver.php:215-220 | without language prefixes a segment always exists; with them it is missing exactly when the cleaned path has no `/` |

## Left out

- Database and factory lookups are inputs, not calls: `LayoutModel::findByPk`, `ModuleModel::findByPk`, `ArticleModel::findPublishedByPidAndColumn`, `ContentModel::findPublishedByPidAndTable`, `createCollection`, `translateIdToMetaModelName`, `getMetaModel`/`byTableName`, `searchForInLanguages` and `getTranslatedDataFor`. A module or model name missing from its map stands for the `null` the lookup would give. A filter id missing from its map gives an empty collection, which binds nothing (`CurrentMetamodels.FilterOf`).
- `getMMFactory` and the service container are not modelled. They only hand out the factory.
- `unserialize` of the layout's module blob is not modelled. The decoded list of module ids is the input.
- The `class_implements`/`ITranslated` test is a boolean per attribute. A missing attribute counts as not translated and is passed over. PHP 7 does this with a warning; PHP 8 would raise a type error instead.
- A model name the factory does not know leads to a method call on `null` in the source, which is a fatal error. The model returns `UnknownModel` for it.
- In V3, a model whose `published` attribute is not translated (a plain checkbox, say) makes the `getTranslatedDataFor` call at line 168 fail, since only translated attributes have that method. The model returns `UntranslatedPublished` for it.
- The changelanguage event is not a live object. Its changes are the values of `NavigationChange`. The lookup of the parent page (`PageModel::findByPk`) is not modelled, only the decision to retarget.
- Globals and request state (`$objPage`, `\Input::get`, `\Environment::get`, `\Config::get`, `$GLOBALS`) are parameters. The write to `useAutoItem` is an output field.
- PHP loose comparison is not modelled:
  - languages are compared with plain string equality;
  - `$alias == null` is read as "absent or empty";
  - `array_search` compares strings exactly;
  - truthiness is modelled only for strings.
- `Php.ArrayMerge`: numeric-string keys are not modelled. PHP converts them to integers and `array_merge` renumbers those; model names are table names, so all keys are strings.
- The MetaModel's `getAttribute` (lines 145, 235) is taken to look attributes up by array key. A parameter position past the attribute list reads `null`, and `null` used as a key is the empty string, so the model uses the attribute name `""` (`FilterAttribute.NullAttribute`).
- `getTranslatedDataFor` followed by `array_shift` is modelled as the `value` of the first row, or none.

=== FILE: current_metamodels.dfy ===
/**
 * getCurrentMetamodels: the MetaModels listed on the current page, each with
 * the attribute its filter binds to `auto_item`. The page's layout modules,
 * its published articles in the `main` column and their published content
 * elements, and the module, model-name and filter lookups behind them are
 * given as data (`PageContext`) instead of being fetched from the database.
 */
module CurrentMetamodels {
  import opened Wrappers
  import opened Php
  import opened FilterAttribute

  /** The content element type that embeds a front end module. */
  const ModuleType := "module"

  /** The fields of a front end module (ModuleModel) the scan reads. */
  datatype FrontendModule = FrontendModule(
    metamodelLayout: nat,     // render setting id; 0 when the module is no MetaModels listing
    metamodel: nat,           // MetaModel id
    metamodelFiltering: nat)  // filter id

  /** The fields of a published content element (ContentModel) the scan reads. */
  datatype ContentElement = ContentElement(
    kind: string,             // the element type
    moduleRef: nat,           // embedded module id, for type "module"
    metamodel: nat,           // MetaModel id, for MetaModels elements
    metamodelFiltering: nat)  // filter id, for MetaModels elements

  /** Everything the scan looks up about the current page. */
  datatype PageContext = PageContext(
    layoutModules: seq<nat>,             // the `mod` ids of the decoded layout module list
    articles: seq<seq<ContentElement>>,  // per published article of `main`, its published elements
    modules: map<nat, FrontendModule>,   // ModuleModel::findByPk; an absent id is null
    modelNames: map<nat, string>,        // translateIdToMetaModelName; an absent id is null
    filters: map<nat, FilterCollection>) // createCollection; an absent id is an empty filter

  /** The collection `createCollection($filterId)` yields; an unknown id has no parameters. */
  function FilterOf(ctx: PageContext, filterId: nat): (f: FilterCollection)
    ensures filterId !in ctx.filters ==> DetectFilterAttribute(f).None?
  {
    if filterId in ctx.filters then ctx.filters[filterId] else FilterCollection([], [])
  }

  /** `$curModel[$modelName]` with an unresolved name: PHP turns a null key into "". */
  function ModelKey(ctx: PageContext, metamodel: nat): string {
    if metamodel in ctx.modelNames then ctx.modelNames[metamodel] else ""
  }

  /** The write a module (from the layout or embedded in content) contributes:
      one entry when it is a listing whose filter binds `auto_item`, else none. */
  function ModuleWrites(ctx: PageContext, moduleId: nat): (ws: seq<Entry>)
    ensures |ws| <= 1
    ensures ws != [] ==> moduleId in ctx.modules && ctx.modules[moduleId].metamodelLayout != 0
    ensures ws != [] ==> DetectFilterAttribute(FilterOf(ctx, ctx.modules[moduleId].metamodelFiltering)) == Some(ws[0].value)
    ensures moduleId in ctx.modules && ctx.modules[moduleId].metamodelLayout != 0
            && DetectFilterAttribute(FilterOf(ctx, ctx.modules[moduleId].metamodelFiltering)).Some? ==>
              ws == [Entry(ModelKey(ctx, ctx.modules[moduleId].metamodel),
                           DetectFilterAttribute(FilterOf(ctx, ctx.modules[moduleId].metamodelFiltering)).value)]
  {
    if moduleId in ctx.modules && ctx.modules[moduleId].metamodelLayout != 0 then
      var m := ctx.modules[moduleId];
      match DetectFilterAttribute(FilterOf(ctx, m.metamodelFiltering))
      case Some(attribute) => [Entry(ModelKey(ctx, m.metamodel), attribute)]
      case None => []
    else []
  }

  /** The write a content element contributes. */
  function ContentWrites(ctx: PageContext, c: ContentElement): (ws: seq<Entry>)
    ensures |ws| <= 1
    ensures c.kind == ModuleType ==> ws == ModuleWrites(ctx, c.moduleRef)
    ensures c.kind != ModuleType && ws != [] ==>
              c.metamodel in ctx.modelNames && Truthy(ctx.modelNames[c.metamodel])
              && ws[0].key == ctx.modelNames[c.metamodel]
              && DetectFilterAttribute(FilterOf(ctx, c.metamodelFiltering)) == Some(ws[0].value)
    ensures c.kind != ModuleType && c.metamodel in ctx.modelNames && Truthy(ctx.modelNames[c.metamodel])
            && DetectFilterAttribute(FilterOf(ctx, c.metamodelFiltering)).Some? ==>
              ws == [Entry(ctx.modelNames[c.metamodel], DetectFilterAttribute(FilterOf(ctx, c.metamodelFiltering)).value)]
  {
    if c.kind == ModuleType then ModuleWrites(ctx, c.moduleRef)
    else if c.metamodel !in ctx.modelNames || !Truthy(ctx.modelNames[c.metamodel]) then []
    else match DetectFilterAttribute(FilterOf(ctx, c.metamodelFiltering))
      case Some(attribute) => [Entry(ctx.modelNames[c.metamodel], attribute)]
      case None => []
  }

  /** The writes of a list of layout modules, in order. */
  function LayoutWrites(ctx: PageContext, ids: seq<nat>): seq<Entry>
  {
    if ids == [] then [] else LayoutWrites(ctx, ids[..|ids| - 1]) + ModuleWrites(ctx, ids[|ids| - 1])
  }

  /** The writes of one article's content elements, in order. */
  function ArticleWrites(ctx: PageContext, contents: seq<ContentElement>): seq<Entry>
  {
    if contents == [] then []
    else ArticleWrites(ctx, contents[..|contents| - 1]) + ContentWrites(ctx, contents[|contents| - 1])
  }

  /** The writes of a list of articles, in order. */
  function ArticlesWrites(ctx: PageContext, articles: seq<seq<ContentElement>>): seq<Entry>
  {
    if articles == [] then []
    else ArticlesWrites(ctx, articles[..|articles| - 1]) + ArticleWrites(ctx, articles[|articles| - 1])
  }

  /** All writes of the scan: the layout modules first, then the articles' content. */
  function Writes(ctx: PageContext): seq<Entry>
  {
    LayoutWrites(ctx, ctx.layoutModules) + ArticlesWrites(ctx, ctx.articles)
  }

  /** The map the scan builds: the writes applied in order to an empty array. */
  function Scan(ctx: PageContext): Assoc
  {
    PutAll([], Writes(ctx))
  }

  /** Records a module's write into `cur`, as the two identical blocks of the source do. */
  method RecordModule(ctx: PageContext, cur: Assoc, moduleId: nat) returns (next: Assoc)
    ensures next == PutAll(cur, ModuleWrites(ctx, moduleId))
  {
    next := cur;
    if moduleId in ctx.modules {
      var objModule := ctx.modules[moduleId];
      if objModule.metamodelLayout != 0 {
        var modelName := ModelKey(ctx, objModule.metamodel);
        var filterAttribute := DetectFilterAttribute(FilterOf(ctx, objModule.metamodelFiltering));
        if filterAttribute.Some? {
          next := Put(cur, modelName, filterAttribute.value);
          assert [Entry(modelName, filterAttribute.value)][..0] == [];
        }
      }
    }
  }

  /** Records a content element's write into `cur`: an embedded module as in
      the layout, a MetaModels element only when its model has a name. */
  method RecordContent(ctx: PageContext, cur: Assoc, content: ContentElement) returns (next: Assoc)
    ensures next == PutAll(cur, ContentWrites(ctx, content))
  {
    if content.kind == ModuleType {
      // a `module` element contributes what its module would in the layout
      next := RecordModule(ctx, cur, content.moduleRef);
      return;
    }
    next := cur;
    if content.metamodel !in ctx.modelNames || !Truthy(ctx.modelNames[content.metamodel]) {
      return;
    }
    var modelName := ctx.modelNames[content.metamodel];
    var filterAttribute := DetectFilterAttribute(FilterOf(ctx, content.metamodelFiltering));
    if filterAttribute.Some? {
      next := Put(cur, modelName, filterAttribute.value);
      assert [Entry(modelName, filterAttribute.value)][..0] == [];
    }
  }

  /** Records the published content elements of one article, in order. */
  method RecordArticle(ctx: PageContext, cur: Assoc, contents: seq<ContentElement>) returns (next: Assoc)
    ensures next == PutAll(cur, ArticleWrites(ctx, contents))
  {
    next := cur;
    var c := 0;
    while c < |contents|
      invariant 0 <= c <= |contents|
      invariant next == PutAll(cur, ArticleWrites(ctx, contents[..c]))
    {
      var content := contents[c];
      next := RecordContent(ctx, next, content);
      assert contents[..c + 1][..c] == contents[..c];
      assert ArticleWrites(ctx, contents[..c + 1]) == ArticleWrites(ctx, contents[..c]) + ContentWrites(ctx, content);
      PutAllAppend(cur, ArticleWrites(ctx, contents[..c]), ContentWrites(ctx, content));
      c := c + 1;
    }
    assert contents[..c] == contents;
  }

  /** The scan, loop by loop as the source runs it. */
  method GetCurrentMetamodels(ctx: PageContext) returns (curModel: Assoc)
    ensures curModel == Scan(ctx)
  {
    curModel := [];
    var modules := ctx.layoutModules;
    var i := 0;
    while i < |modules|
      invariant 0 <= i <= |modules|
      invariant curModel == PutAll([], LayoutWrites(ctx, modules[..i]))
    {
      curModel := RecordModule(ctx, curModel, modules[i]);
      assert modules[..i + 1][..i] == modules[..i];
      assert LayoutWrites(ctx, modules[..i + 1]) == LayoutWrites(ctx, modules[..i]) + ModuleWrites(ctx, modules[i]);
      PutAllAppend([], LayoutWrites(ctx, modules[..i]), ModuleWrites(ctx, modules[i]));
      i := i + 1;
    }
    assert modules[..i] == modules;
    ghost var afterLayout := curModel;

    var articles := ctx.articles;
    var a := 0;
    while a < |articles|
      invariant 0 <= a <= |articles|
      invariant curModel == PutAll(afterLayout, ArticlesWrites(ctx, articles[..a]))
    {
      var contents := articles[a];
      curModel := RecordArticle(ctx, curModel, contents);
      assert articles[..a + 1][..a] == articles[..a];
      assert ArticlesWrites(ctx, articles[..a + 1]) == ArticlesWrites(ctx, articles[..a]) + ArticleWrites(ctx, contents);
      PutAllAppend(afterLayout, ArticlesWrites(ctx, articles[..a]), ArticleWrites(ctx, contents));
      a := a + 1;
    }
    assert articles[..a] == articles;
    PutAllAppend([], LayoutWrites(ctx, modules), ArticlesWrites(ctx, articles));
  }

  /** Writes in two parts applied one part after the other. */
  lemma {:induction false} PutAllAppend(a: Assoc, ws: seq<Entry>, vs: seq<Entry>)
    ensures PutAll(a, ws + vs) == PutAll(PutAll(a, ws), vs)
  {
    if vs == [] {
      assert ws + vs == ws;
    } else {
      assert (ws + vs)[..|ws + vs| - 1] == ws + vs[..|vs| - 1];
      PutAllAppend(a, ws, vs[..|vs| - 1]);
    }
  }

  /** The scan's map: one slot per model name; a name maps to the attribute of its
      last write, and a name is present only when some element wrote it. */
  lemma ScanLookup(ctx: PageContext, k: string)
    ensures DistinctKeys(Scan(ctx))
    ensures Get(Scan(ctx), k) == LastWrite(Writes(ctx), k)
  {
    PutAllGet([], Writes(ctx), k);
    PutAllShape([], Writes(ctx));
  }

  /** Layout modules are processed before article content: a model named by
      both keeps the content's attribute. */
  lemma ScanContentAfterLayout(ctx: PageContext, k: string)
    ensures var fromContent := LastWrite(ArticlesWrites(ctx, ctx.articles), k);
            Get(Scan(ctx), k) == if fromContent.Some? then fromContent
                                 else LastWrite(LayoutWrites(ctx, ctx.layoutModules), k)
  {
    ScanLookup(ctx, k);
    LastWriteAppend(LayoutWrites(ctx, ctx.layoutModules), ArticlesWrites(ctx, ctx.articles), k);
  }

  /** With no element writing anything the result is the empty map, and only then. */
  lemma ScanEmpty(ctx: PageContext)
    ensures Scan(ctx) == [] <==> Writes(ctx) == []
  {
    PutAllShape([], Writes(ctx));
  }

  /** A content element of type `module` is handled as its module in the layout
      would be, whatever its own model and filter fields hold. */
  lemma EmbeddedModuleAsLayoutModule(ctx: PageContext, c: ContentElement)
    requires c.kind == ModuleType
    ensures ArticleWrites(ctx, [c]) == LayoutWrites(ctx, [c.moduleRef])
  {
    assert [c][..0] == [];
    assert [c.moduleRef][..0] == [];
  }

  /** The layout's writes split at any point. */
  lemma {:induction false} LayoutWritesAppend(ctx: PageContext, xs: seq<nat>, ys: seq<nat>)
    ensures LayoutWrites(ctx, xs + ys) == LayoutWrites(ctx, xs) + LayoutWrites(ctx, ys)
  {
    if ys == [] {
      assert xs + ys == xs;
    } else {
      var zs := xs + ys;
      assert zs[..|zs| - 1] == xs + ys[..|ys| - 1] && zs[|zs| - 1] == ys[|ys| - 1];
      LayoutWritesAppend(ctx, xs, ys[..|ys| - 1]);
    }
  }

  /** The layout's writes around the module at position `i`. */
  lemma LayoutWritesAt(ctx: PageContext, ids: seq<nat>, i: nat)
    requires i < |ids|
    ensures LayoutWrites(ctx, ids)
         == LayoutWrites(ctx, ids[..i]) + ModuleWrites(ctx, ids[i]) + LayoutWrites(ctx, ids[i + 1..])
  {
    var xs, ys := ids[..i], ids[i + 1..];
    assert ids == (xs + [ids[i]]) + ys;
    LayoutWritesAppend(ctx, xs + [ids[i]], ys);
    assert (xs + [ids[i]])[..|xs|] == xs;
  }

  /** All writes of the scan around the layout module at position `i`. */
  lemma WritesAroundLayoutModule(ctx: PageContext, i: nat)
    requires i < |ctx.layoutModules|
    ensures var ids := ctx.layoutModules;
            Writes(ctx) == LayoutWrites(ctx, ids[..i]) + ModuleWrites(ctx, ids[i])
                           + (LayoutWrites(ctx, ids[i + 1..]) + ArticlesWrites(ctx, ctx.articles))
  {
    var ids := ctx.layoutModules;
    LayoutWritesAt(ctx, ids, i);
    var a, b, c, d := LayoutWrites(ctx, ids[..i]), ModuleWrites(ctx, ids[i]),
                      LayoutWrites(ctx, ids[i + 1..]), ArticlesWrites(ctx, ctx.articles);
    assert (a + b + c) + d == a + b + (c + d);
  }

  /** The last write to the model of a layout listing at position `i` is that
      listing's, unless a later layout module or an article element writes it. */
  lemma LayoutListingWrite(ctx: PageContext, i: nat, attribute: string)
    requires i < |ctx.layoutModules|
    requires var id := ctx.layoutModules[i];
             id in ctx.modules && ctx.modules[id].metamodelLayout != 0
             && DetectFilterAttribute(FilterOf(ctx, ctx.modules[id].metamodelFiltering)) == Some(attribute)
    ensures var key := ModelKey(ctx, ctx.modules[ctx.layoutModules[i]].metamodel);
            var fromLater := LastWrite(LayoutWrites(ctx, ctx.layoutModules[i + 1..]) + ArticlesWrites(ctx, ctx.articles), key);
            LastWrite(Writes(ctx), key) == if fromLater.Some? then fromLater else Some(attribute)
  {
    var ids := ctx.layoutModules;
    var w := Entry(ModelKey(ctx, ctx.modules[ids[i]].metamodel), attribute);
    WritesAroundLayoutModule(ctx, i);
    assert ModuleWrites(ctx, ids[i]) == [w];
    LastWriteAround(LayoutWrites(ctx, ids[..i]), w,
                    LayoutWrites(ctx, ids[i + 1..]) + ArticlesWrites(ctx, ctx.articles));
  }

  /** A MetaModels listing in the layout whose filter binds `auto_item` to
      `attribute` puts its model into the scan's map; the model maps to that
      attribute unless a later layout module or an article element writes it. */
  lemma LayoutListingInScan(ctx: PageContext, i: nat, attribute: string)
    requires i < |ctx.layoutModules|
    requires var id := ctx.layoutModules[i];
             id in ctx.modules && ctx.modules[id].metamodelLayout != 0
             && DetectFilterAttribute(FilterOf(ctx, ctx.modules[id].metamodelFiltering)) == Some(attribute)
    ensures var key := ModelKey(ctx, ctx.modules[ctx.layoutModules[i]].metamodel);
            && Get(Scan(ctx), key).Some?
            && (LastWrite(LayoutWrites(ctx, ctx.layoutModules[i + 1..]) + ArticlesWrites(ctx, ctx.articles), key).None?
                ==> Get(Scan(ctx), key) == Some(attribute))
  {
    var key := ModelKey(ctx, ctx.modules[ctx.layoutModules[i]].metamodel);
    LayoutListingWrite(ctx, i, attribute);
    ScanLookup(ctx, key);
  }
}

=== FILE: data_layer.dfy ===
/**
 * What the observer asks the MetaModels data layer, as plain values: per
 * model its fallback language and its attributes; per attribute whether it is
 * translated, its alias search and its translated data.
 */
module DataLayer {
  import opened Wrappers

  /** A MetaModels item id. */
  type Id = nat

  /** The name of the optional attribute that says whether an item is published. */
  const Published := "published"

  /** An attribute of a MetaModel. */
  datatype Attribute = Attribute(
    // the attribute class implements MetaModels\Attribute\ITranslated
    translated: bool,
    // searchForInLanguages(alias, languages): the ids of the matching items
    search: (string, seq<string>) -> seq<Id>,
    // getTranslatedDataFor(ids, language) and array_shift: the `value` of the first row, or null
    data: (seq<Id>, string) -> Option<string>)

  /** A MetaModel as returned by the factory. */
  datatype MetaModel = MetaModel(fallbackLanguage: string, attributes: map<string, Attribute>)

  /** The data in `language`, or in `fallback` when `language` gives null. */
  function DataWithFallback(a: Attribute, ids: seq<Id>, language: string, fallback: string): Option<string> {
    var first := a.data(ids, language);
    if first.None? then a.data(ids, fallback) else first
  }
}

=== FILE: filter_attribute.dfy ===
/**
 * detectFilterAttribute: which attribute a MetaModels filter binds to the
 * `auto_item` URL parameter. The filter collection's parameter list and its
 * referenced-attribute list come from the data layer and are taken here as
 * plain input.
 */
module FilterAttribute {
  import opened Wrappers

  const AutoItem := "auto_item"

  /** PHP's `null` read as an array key is "": an `auto_item` parameter with no
      attribute at its position yields `null`, which names the attribute "". */
  const NullAttribute := ""

  /** What `createCollection($filterId)` reports: parameters and, position by
      position, the attributes they refer to. */
  datatype FilterCollection = FilterCollection(parameters: seq<string>, attributes: seq<string>)

  /** `$attributes[$i]`: the attribute at position `i`, or the null one past the end. */
  function AttributeAt(f: FilterCollection, i: nat): (name: string)
    ensures i >= |f.attributes| ==> name == NullAttribute
  {
    if i < |f.attributes| then f.attributes[i] else NullAttribute
  }

  /** `array_search($x, $s)`: the first index holding `x`, if any. */
  function FirstIndexOf(s: seq<string>, x: string): (r: Option<nat>)
    ensures r.Some? ==> r.value < |s| && s[r.value] == x
    ensures r.Some? ==> forall j :: 0 <= j < r.value ==> s[j] != x
    ensures r.None? <==> x !in s
  {
    if s == [] then None
    else if s[0] == x then Some(0)
    else match FirstIndexOf(s[1..], x)
      case None => None
      case Some(i) => Some(i + 1)
  }

  /** The attribute at the first `auto_item` parameter; None stands for `false`. */
  function DetectFilterAttribute(f: FilterCollection): (r: Option<string>)
    ensures r.None? <==> AutoItem !in f.parameters
    ensures r.Some? ==> exists i :: 0 <= i < |f.parameters| && f.parameters[i] == AutoItem
                                    && r.value == AttributeAt(f, i)
                                    && forall j :: 0 <= j < i ==> f.parameters[j] != AutoItem
  {
    match FirstIndexOf(f.parameters, AutoItem)
    case Some(i) => Some(AttributeAt(f, i))
    case None => None
  }

  /** The converse: the first `auto_item` position decides the result, and
      position 0 counts as found (the source compares with `!== false`). */
  lemma DetectAtFirstAutoItem(f: FilterCollection, i: nat)
    requires i < |f.parameters| && f.parameters[i] == AutoItem
    requires forall j :: 0 <= j < i ==> f.parameters[j] != AutoItem
    ensures DetectFilterAttribute(f) == Some(if i < |f.attributes| then f.attributes[i] else NullAttribute)
  {
    var r := FirstIndexOf(f.parameters, AutoItem);
    assert r.Some?;
    assert !(r.value < i) && !(i < r.value);
  }
}

=== FILE: php.dfy ===
/**
 * The parts of PHP's value semantics the observer relies on: the boolean
 * reading of a string, associative arrays with string keys (ordered, one
 * slot per key), and a `foreach` that returns at the first pair giving a
 * result.
 */
module Php {
  import opened Wrappers

  /** PHP's conversion of a string to bool: only "" and "0" are false. */
  predicate Truthy(s: string) {
    s != "" && s != "0"
  }

  /** One slot of an associative array. */
  datatype Entry = Entry(key: string, value: string)

  /** An associative array with string keys: its slots in insertion order. */
  type Assoc = seq<Entry>

  /** The invariant of every PHP array: no key occurs twice. */
  predicate DistinctKeys(a: Assoc) {
    forall i, j :: 0 <= i < j < |a| ==> a[i].key != a[j].key
  }

  /** `array_keys($a)`. */
  function Keys(a: Assoc): (ks: seq<string>)
    ensures |ks| == |a|
    ensures forall i :: 0 <= i < |a| ==> ks[i] == a[i].key
  {
    seq(|a|, i requires 0 <= i < |a| => a[i].key)
  }

  /** The position of key `k`, if present. */
  function Find(a: Assoc, k: string): (r: Option<nat>)
    ensures r.Some? ==> r.value < |a| && a[r.value].key == k
    ensures r.Some? ==> forall j :: 0 <= j < r.value ==> a[j].key != k
    ensures r.None? <==> forall j :: 0 <= j < |a| ==> a[j].key != k
  {
    if a == [] then None
    else if a[0].key == k then Some(0)
    else match Find(a[1..], k)
      case None => None
      case Some(i) => Some(i + 1)
  }

  /** Reading `$a[$k]`: the value stored under `k`, or None when unset. */
  function Get(a: Assoc, k: string): (r: Option<string>)
    ensures r.None? <==> k !in Keys(a)
    ensures r.Some? ==> Entry(k, r.value) in a
  {
    match Find(a, k)
    case None => None
    case Some(i) => Some(a[i].value)
  }

  /** Writing `$a[$k] = $v`: a present key keeps its slot, a new one is appended. */
  function Put(a: Assoc, k: string, v: string): (r: Assoc)
  {
    match Find(a, k)
    case Some(i) =>
      assert a[i := Entry(k, v)][i] == Entry(k, v);
      a[i := Entry(k, v)]
    case None => a + [Entry(k, v)]
  }

  /** Several writes in order: a loop of `$a[$k] = $v`, or `array_merge($a, $b)`. */
  function PutAll(a: Assoc, ws: seq<Entry>): (r: Assoc)
  {
    if ws == [] then a
    else
      var w := ws[|ws| - 1];
      Put(PutAll(a, ws[..|ws| - 1]), w.key, w.value)
  }

  /** Reference definition of "the last write wins": the value of the last write to `k`. */
  function LastWrite(ws: seq<Entry>, k: string): (r: Option<string>)
    ensures r.None? <==> forall i :: 0 <= i < |ws| ==> ws[i].key != k
    ensures r.Some? ==> exists i :: 0 <= i < |ws| && ws[i] == Entry(k, r.value)
                                    && forall j :: i < j < |ws| ==> ws[j].key != k
  {
    if ws == [] then None
    else if ws[|ws| - 1].key == k then Some(ws[|ws| - 1].value)
    else LastWrite(ws[..|ws| - 1], k)
  }

  /** `array_merge($a, $b)` for string keys: later values win, first positions stay. */
  function ArrayMerge(a: Assoc, b: Assoc): (r: Assoc)
    ensures Keys(r) == Keys(a) + NewKeys(Keys(a), b)
  {
    PutAllShape(a, b);
    PutAll(a, b)
  }

  /** The keys of `ws` that are neither in `ks` nor written earlier, in the order
      of their first write: the keys a sequence of writes appends. */
  function NewKeys(ks: seq<string>, ws: seq<Entry>): (r: seq<string>)
    ensures forall k :: k in r <==> k !in ks && exists i :: 0 <= i < |ws| && ws[i].key == k
    ensures forall i, j :: 0 <= i < j < |r| ==> r[i] != r[j]
  {
    if ws == [] then []
    else
      var prev := NewKeys(ks, ws[..|ws| - 1]);
      var k := ws[|ws| - 1].key;
      assert forall i :: 0 <= i < |ws| - 1 ==> ws[..|ws| - 1][i] == ws[i];
      if k in ks || k in prev then prev else prev + [k]
  }

  /** Find looks at keys only: arrays agreeing on the keys of `a`, and without `k`
      beyond them, find `k` at the same place. */
  lemma {:induction false} FindByKeys(a: Assoc, b: Assoc, k: string)
    requires |a| <= |b|
    requires forall m :: 0 <= m < |a| ==> b[m].key == a[m].key
    requires forall m :: |a| <= m < |b| ==> b[m].key != k
    ensures Find(b, k) == Find(a, k)
  {
    if a == [] {
      assert forall m :: 0 <= m < |b| ==> b[m].key != k;
    } else if a[0].key != k {
      FindByKeys(a[1..], b[1..], k);
    }
  }

  /** A write changes the key written and no other. */
  lemma PutGet(a: Assoc, k: string, v: string, k': string)
    ensures Get(Put(a, k, v), k') == if k' == k then Some(v) else Get(a, k')
  {
    var r := Put(a, k, v);
    match Find(a, k)
    case Some(i) =>
      assert r == a[i := Entry(k, v)];
      FindByKeys(a, r, k');
      if k' != k {
        match Find(a, k')
        case Some(j) => assert r[j] == a[j];
        case None =>
      }
    case None =>
      assert r == a + [Entry(k, v)];
      if k' != k {
        FindByKeys(a, r, k');
        match Find(a, k')
        case Some(j) => assert r[j] == a[j];
        case None =>
      } else {
        assert r[|a|] == Entry(k, v);
        assert forall m :: 0 <= m < |a| ==> r[m] == a[m];
        assert Find(r, k) == Some(|a|);
      }
  }

  /** A write keeps keys distinct and keeps the order of the keys already there. */
  lemma PutShape(a: Assoc, k: string, v: string)
    ensures Keys(Put(a, k, v)) == if k in Keys(a) then Keys(a) else Keys(a) + [k]
    ensures DistinctKeys(a) ==> DistinctKeys(Put(a, k, v))
    ensures Put(a, k, v) != []
  {
    var r := Put(a, k, v);
    match Find(a, k)
    case Some(i) =>
      assert Keys(a)[i] == k;
      assert Keys(r) == Keys(a);
    case None =>
      assert k !in Keys(a);
      assert Keys(r) == Keys(a) + [k];
  }

  /** The writes of `ws` applied over `a`: a key reads as its last write, else as in `a`. */
  lemma {:induction false} PutAllGet(a: Assoc, ws: seq<Entry>, k: string)
    ensures Get(PutAll(a, ws), k) == if LastWrite(ws, k).Some? then LastWrite(ws, k) else Get(a, k)
  {
    if ws != [] {
      var w := ws[|ws| - 1];
      PutAllGet(a, ws[..|ws| - 1], k);
      PutGet(PutAll(a, ws[..|ws| - 1]), w.key, w.value, k);
    }
  }

  /** Applying writes keeps keys distinct, keeps the keys already present first
      and in order, appends the new keys in the order of their first write, and
      gives the empty array only from the empty array and no writes. */
  lemma {:induction false} PutAllShape(a: Assoc, ws: seq<Entry>)
    ensures DistinctKeys(a) ==> DistinctKeys(PutAll(a, ws))
    ensures Keys(PutAll(a, ws)) == Keys(a) + NewKeys(Keys(a), ws)
    ensures PutAll(a, ws) == [] <==> a == [] && ws == []
  {
    if ws != [] {
      var w := ws[|ws| - 1];
      var before := PutAll(a, ws[..|ws| - 1]);
      PutAllShape(a, ws[..|ws| - 1]);
      PutShape(before, w.key, w.value);
      assert w.key in Keys(before) <==> w.key in Keys(a) || w.key in NewKeys(Keys(a), ws[..|ws| - 1]);
    }
  }

  /** The converse of LastWrite's contract: the last write to `k` determines it. */
  lemma {:induction false} LastWriteAt(ws: seq<Entry>, i: nat)
    requires i < |ws|
    requires forall j :: i < j < |ws| ==> ws[j].key != ws[i].key
    ensures LastWrite(ws, ws[i].key) == Some(ws[i].value)
  {
    if i < |ws| - 1 {
      LastWriteAt(ws[..|ws| - 1], i);
    }
  }

  /** Writes split in two: a write in the second part wins over the first part. */
  lemma {:induction false} LastWriteAppend(ws: seq<Entry>, vs: seq<Entry>, k: string)
    ensures LastWrite(ws + vs, k) == if LastWrite(vs, k).Some? then LastWrite(vs, k) else LastWrite(ws, k)
  {
    if vs != [] {
      assert (ws + vs)[..|ws + vs| - 1] == ws + vs[..|vs| - 1];
      LastWriteAppend(ws, vs[..|vs| - 1], k);
    } else {
      assert ws + vs == ws;
    }
  }

  /** A write with writes before and after it: it is the last write to its key
      unless one of the writes after it has that key. */
  lemma LastWriteAround(ws: seq<Entry>, w: Entry, vs: seq<Entry>)
    ensures LastWrite(ws + [w] + vs, w.key)
         == if LastWrite(vs, w.key).Some? then LastWrite(vs, w.key) else Some(w.value)
  {
    LastWriteAppend(ws + [w], vs, w.key);
    LastWriteAt(ws + [w], |ws|);
  }

  /** In an array with distinct keys the only write to a key is the last one. */
  lemma LastWriteDistinct(a: Assoc, k: string)
    requires DistinctKeys(a)
    ensures LastWrite(a, k) == Get(a, k)
  {
    match Find(a, k)
    case Some(i) => LastWriteAt(a, i);
    case None =>
  }

  /** `array_merge`: a key of `b` takes `b`'s value, any other key keeps `a`'s;
      `a`'s keys stay first and in order, followed by `b`'s other keys in `b`'s order. */
  lemma ArrayMergeGet(a: Assoc, b: Assoc, k: string)
    requires DistinctKeys(b)
    ensures Get(ArrayMerge(a, b), k) == if Get(b, k).Some? then Get(b, k) else Get(a, k)
    ensures Keys(ArrayMerge(a, b)) == Keys(a) + NewKeys(Keys(a), b)
    ensures DistinctKeys(a) ==> DistinctKeys(ArrayMerge(a, b))
  {
    PutAllGet(a, b, k);
    LastWriteDistinct(b, k);
    PutAllShape(a, b);
  }

  /**
   * A `foreach` over the pairs that `continue`s while `resolve` gives None and
   * `return`s the first result it gives; None when no pair gives one.
   */
  function FirstResult<R>(es: seq<Entry>, resolve: Entry -> Option<R>): (r: Option<R>)
    ensures r.None? <==> forall i :: 0 <= i < |es| ==> resolve(es[i]).None?
    ensures r.Some? ==> exists i :: 0 <= i < |es| && resolve(es[i]) == r
                                    && forall j :: 0 <= j < i ==> resolve(es[j]).None?
  {
    if es == [] then None
    else match resolve(es[0])
      case Some(x) => Some(x)
      case None => FirstResult(es[1..], resolve)
  }

  /** One step of the `foreach`: from position `i` on, the result is that of pair
      `i` when it gives one, else the result from position `i + 1` on. */
  lemma FirstResultStep<R>(es: seq<Entry>, i: nat, resolve: Entry -> Option<R>)
    requires i < |es|
    ensures FirstResult(es[i..], resolve)
         == if resolve(es[i]).Some? then resolve(es[i]) else FirstResult(es[i + 1..], resolve)
  {
    assert es[i..][0] == es[i] && es[i..][1..] == es[i + 1..];
  }

  /** Once a pair has given a result, the pairs after it are never consulted. */
  lemma {:induction false} FirstResultIgnoresRest<R>(es: seq<Entry>, rest: seq<Entry>, resolve: Entry -> Option<R>)
    requires FirstResult(es, resolve).Some?
    ensures FirstResult(es + rest, resolve) == FirstResult(es, resolve)
  {
    assert es != [];
    assert (es + rest)[0] == es[0];
    if resolve(es[0]).None? {
      assert (es + rest)[1..] == es[1..] + rest;
      FirstResultIgnoresRest(es[1..], rest, resolve);
    }
  }
}

=== FILE: request.dfy ===
/**
 * The request and configuration state both hooks read from globals, and the
 * configured override of the detected model/attribute map.
 */
module Request {
  import opened Wrappers
  import opened Php

  /** The global state the hooks read. */
  datatype Globals = Globals(
    language: string,          // $GLOBALS['TL_LANGUAGE'], the current language
    alias: Option<string>,     // \Input::get('auto_item')
    overrides: Option<Assoc>)  // $GLOBALS['TL_CONFIG']['mm_changelanguage'], when set

  /** `$alias == null`: no alias, or the empty string. */
  predicate AliasMissing(alias: Option<string>) {
    alias.None? || alias.value == ""
  }

  /** The detected map with the configured overrides merged over it. */
  function ApplyOverrides(detected: Assoc, overrides: Option<Assoc>): Assoc {
    match overrides
    case None => detected
    case Some(o) => ArrayMerge(detected, o)
  }

  /** An override wins for its model name; every other name keeps its detected
      attribute; the detected names keep their order at the front, followed by the
      names only the overrides give, in their configured order. */
  lemma OverridesWin(detected: Assoc, overrides: Option<Assoc>, name: string)
    requires overrides.Some? ==> DistinctKeys(overrides.value)
    ensures var merged := ApplyOverrides(detected, overrides);
            && (overrides.Some? && Get(overrides.value, name).Some? ==> Get(merged, name) == Get(overrides.value, name))
            && (overrides.None? || Get(overrides.value, name).None? ==> Get(merged, name) == Get(detected, name))
            && Keys(merged) == Keys(detected) + (if overrides.Some? then NewKeys(Keys(detected), overrides.value) else [])
            && (DistinctKeys(detected) ==> DistinctKeys(merged))
  {
    if overrides.Some? {
      ArrayMergeGet(detected, overrides.value, name);
    }
  }
}

=== FILE: request_uri.dfy ===
/**
 * The first path segment translateMMUrlsV2 takes from the request URI: every
 * `index.php/` removed, the query string dropped, the rest split on `/`, and
 * the language segment dropped when URLs carry a language prefix.
 */
module RequestUri {
  import opened Wrappers

  const IndexFragment := "index.php/"

  /** `search` starts somewhere in `s`. */
  predicate Occurs(search: string, s: string)
    decreases |s|
  {
    search <= s || (s != [] && Occurs(search, s[1..]))
  }

  /** `str_replace($search, '', $s)`: occurrences removed in one left-to-right pass. */
  function RemoveAll(s: string, search: string): (r: string)
    ensures |r| <= |s|
    decreases |s|
  {
    if search == [] || s == [] then s
    else if search <= s then RemoveAll(s[|search|..], search)
    else [s[0]] + RemoveAll(s[1..], search)
  }

  /** `explode($c, $s, 2)[0]`: the part of `s` before the first `c`. */
  function BeforeFirst(s: string, c: char): (r: string)
    ensures r <= s && c !in r
    ensures |r| < |s| ==> s[|r|] == c
  {
    if s == [] || s[0] == c then []
    else [s[0]] + BeforeFirst(s[1..], c)
  }

  /** `implode($sep, $segments)`. */
  function Join(segments: seq<string>, sep: char): string {
    if segments == [] then []
    else if |segments| == 1 then segments[0]
    else segments[0] + [sep] + Join(segments[1..], sep)
  }

  /** `explode($sep, $s)`: never empty, no piece holds `sep`, and joining the
      pieces gives `s` back. */
  function Split(s: string, sep: char): (r: seq<string>)
    ensures |r| >= 1
    ensures forall i :: 0 <= i < |r| ==> sep !in r[i]
    ensures Join(r, sep) == s
    decreases |s|
  {
    var head := BeforeFirst(s, sep);
    if |head| == |s| then [s]
    else
      var rest := Split(s[|head| + 1..], sep);
      assert s == head + [sep] + s[|head| + 1..];
      [head] + rest
  }

  /** `$uri` after the optional `array_shift`. */
  function UriSegments(request: string, addLanguageToUrl: bool): seq<string> {
    var uri := Split(BeforeFirst(RemoveAll(request, IndexFragment), '?'), '/');
    if addLanguageToUrl then uri[1..] else uri
  }

  /** `$uri[0]`; None stands for the null of an undefined offset. */
  function FirstSegment(request: string, addLanguageToUrl: bool): Option<string> {
    var uri := UriSegments(request, addLanguageToUrl);
    if uri == [] then None else Some(uri[0])
  }

  /** Without an occurrence there is nothing to remove. */
  lemma {:induction false} RemoveAllAbsent(s: string, search: string)
    requires !Occurs(search, s)
    ensures RemoveAll(s, search) == s
    decreases |s|
  {
    if search != [] && s != [] {
      RemoveAllAbsent(s[1..], search);
    }
  }

  /** Splitting what was joined gives the pieces back. */
  lemma {:induction false} SplitJoin(segments: seq<string>, sep: char)
    requires |segments| >= 1
    requires forall i :: 0 <= i < |segments| ==> sep !in segments[i]
    ensures Split(Join(segments, sep), sep) == segments
  {
    var s := Join(segments, sep);
    if |segments| == 1 {
      BeforeFirstWhole(s, sep);
    } else {
      var tail := Join(segments[1..], sep);
      assert s == segments[0] + [sep] + tail;
      BeforeFirstAt(segments[0], tail, sep);
      assert s[|segments[0]| + 1..] == tail;
      SplitJoin(segments[1..], sep);
      assert [segments[0]] + segments[1..] == segments;
    }
  }

  /** With no `c` in `s`, all of `s` comes before it. */
  lemma {:induction false} BeforeFirstWhole(s: string, c: char)
    requires c !in s
    ensures BeforeFirst(s, c) == s
  {
    if s != [] {
      BeforeFirstWhole(s[1..], c);
    }
  }

  /** The part before the first `c` of `head + [c] + tail`, when `head` holds no `c`. */
  lemma {:induction false} BeforeFirstAt(head: string, tail: string, c: char)
    requires c !in head
    ensures BeforeFirst(head + [c] + tail, c) == head
  {
    if head != [] {
      assert (head + [c] + tail)[1..] == head[1..] + [c] + tail;
      BeforeFirstAt(head[1..], tail, c);
    }
  }

  /** A clean request path `lang/page/...`: with language prefixes the segment
      used is the page, without them it is the first segment. */
  lemma PathSegments(segments: seq<string>)
    requires |segments| >= 2
    requires forall i :: 0 <= i < |segments| ==> '/' !in segments[i]
    requires '?' !in Join(segments, '/') && !Occurs(IndexFragment, Join(segments, '/'))
    ensures FirstSegment(Join(segments, '/'), true) == Some(segments[1])
    ensures FirstSegment(Join(segments, '/'), false) == Some(segments[0])
  {
    var request := Join(segments, '/');
    RemoveAllAbsent(request, IndexFragment);
    BeforeFirstWhole(request, '?');
    SplitJoin(segments, '/');
  }

  /** A leading occurrence is removed whole, and removal goes on after it. */
  lemma RemoveAllLeading(search: string, s: string)
    requires search != []
    ensures RemoveAll(search + s, search) == RemoveAll(s, search)
  {
    assert (search + s)[|search|..] == s;
  }

  /** A part in which no occurrence starts, and which no occurrence can run past
      because it is followed by a character `search` does not hold, is kept as it is. */
  lemma {:induction false} RemoveAllKeepsClean(x: string, y: string, search: string)
    requires search != [] && y != [] && y[0] !in search
    requires !Occurs(search, x)
    ensures RemoveAll(x + y, search) == x + RemoveAll(y, search)
    decreases |x|
  {
    if x != [] {
      var s := x + y;
      NoOccurrenceAcross(x, y, search);
      assert s[1..] == x[1..] + y;
      RemoveAllKeepsClean(x[1..], y, search);
      assert RemoveAll(s, search) == [x[0]] + (x[1..] + RemoveAll(y, search));
      assert [x[0]] + (x[1..] + RemoveAll(y, search)) == x + RemoveAll(y, search);
    } else {
      assert x + y == y;
    }
  }

  /** No occurrence starts at the front of `x + y` when `x` holds none and `y`
      starts with a character `search` does not hold. */
  lemma NoOccurrenceAcross(x: string, y: string, search: string)
    requires x != [] && y != [] && y[0] !in search
    requires !Occurs(search, x)
    ensures !(search <= x + y) && !Occurs(search, x[1..])
  {
    var s := x + y;
    assert !(search <= x);
    if |search| <= |x| {
      assert s[..|search|] == x[..|search|];
    } else {
      assert s[|x|] == y[0] != search[|x|];
    }
  }

  /** `search + path + "?" + query` cleaned as the hook does, for a path in which
      `search` does not occur and a `search` without `?`: the path comes back. */
  lemma StripScriptAndQuery(search: string, path: string, query: string)
    requires search != [] && '?' !in search
    requires '?' !in path && !Occurs(search, path)
    ensures BeforeFirst(RemoveAll(search + path + "?" + query, search), '?') == path
  {
    var tail := "?" + query;
    assert search + path + "?" + query == search + (path + tail);
    RemoveAllLeading(search, path + tail);
    RemoveAllKeepsClean(path, tail, search);
    var rest := RemoveAll(query, search);
    assert RemoveAll(tail, search) == "?" + rest by {
      assert tail[0] == '?' && tail[1..] == query;
      assert !(search <= tail);
    }
    assert path + ("?" + rest) == path + ['?'] + rest;
    BeforeFirstAt(path, rest, '?');
  }

  /** The hook's cleaning of `index.php/` + path + `?` + query gives the path,
      when the path holds no `?` and no `index.php/`. */
  lemma StripIndexAndQuery(path: string, query: string)
    requires '?' !in path && !Occurs(IndexFragment, path)
    ensures BeforeFirst(RemoveAll(IndexFragment + path + "?" + query, IndexFragment), '?') == path
  {
    StripScriptAndQuery(IndexFragment, path, query);
  }

  /** A request of the form `index.php/seg1/.../segN?query`: the script name and
      the query string are stripped and the segments come back as they were. */
  lemma IndexPathSegments(segments: seq<string>, query: string)
    requires |segments| >= 2
    requires forall i :: 0 <= i < |segments| ==> '/' !in segments[i]
    requires '?' !in Join(segments, '/') && !Occurs(IndexFragment, Join(segments, '/'))
    ensures var request := IndexFragment + Join(segments, '/') + "?" + query;
            && UriSegments(request, false) == segments
            && FirstSegment(request, true) == Some(segments[1])
            && FirstSegment(request, false) == Some(segments[0])
  {
    StripIndexAndQuery(Join(segments, '/'), query);
    SplitJoin(segments, '/');
  }

  /** Without language prefixes there always is a segment; with them there is
      none exactly when the cleaned path has no `/`. */
  lemma SegmentPresence(request: string)
    ensures FirstSegment(request, false).Some?
    ensures FirstSegment(request, true).None? <==>
              '/' !in BeforeFirst(RemoveAll(request, IndexFragment), '?')
  {
    var path := BeforeFirst(RemoveAll(request, IndexFragment), '?');
    var uri := Split(path, '/');
    if '/' !in path {
      SplitJoin([path], '/');
      assert uri == [path];
    }
  }
}

=== FILE: translate_v2.dfy ===
/**
 * translateMMUrlsV2: the deprecated changelanguage hook. It returns the URL
 * parameters, may clear the by-reference `addToNavigation` flag and may write
 * `useAutoItem` into the global configuration; all three are outputs here.
 */
module TranslateV2 {
  import opened Wrappers
  import opened Php
  import opened DataLayer
  import opened Request
  import opened CurrentMetamodels
  import opened RequestUri

  /** The key of the URL parameters that the hook rewrites. */
  const UrlKey := "url"

  /** The outcome of the first pair that is not passed over. */
  datatype PairResult =
    | NotInNavigation          // no data in the requested language
    | UrlValue(value: string)  // the alias in the requested language
    | MissingModel(name: string)

  /** The hook's write to `$GLOBALS['TL_CONFIG']['useAutoItem']`. */
  datatype ConfigWrite = KeepUseAutoItem | SetUseAutoItem(segment: Option<string>)

  /** What the hook hands back. */
  datatype HookResult =
    | Returned(params: map<string, seq<string>>, addToNavigation: bool, useAutoItem: ConfigWrite)
    | UnknownModel(name: string)  // byTableName gave null: the call on it is a fatal error

  /** One pass of the loop over model/attribute pairs; None is `continue`. */
  function ResolvePairV2(pair: Entry, models: map<string, MetaModel>, alias: string,
                         current: string, language: string): Option<PairResult>
  {
    if pair.key !in models then Some(MissingModel(pair.key))
    else
      var mm := models[pair.key];
      if pair.value !in mm.attributes || !mm.attributes[pair.value].translated then None
      else
        var attribute := mm.attributes[pair.value];
        var ids := attribute.search(alias, [current]);
        if |ids| < 1 then None
        else match attribute.data(ids, language)
          case None => Some(NotInNavigation)
          case Some(value) => Some(UrlValue(value))
  }

  /** ResolvePairV2 with everything but the pair fixed, as the loop uses it. */
  function PairResolverV2(models: map<string, MetaModel>, alias: string, current: string,
                          language: string): Entry -> Option<PairResult>
  {
    pair => ResolvePairV2(pair, models, alias, current, language)
  }

  /** What the hook returns once the loop has found `found`. */
  function Conclude(found: Option<PairResult>, params: map<string, seq<string>>, addToNavigation: bool,
                    segment: Option<string>): HookResult
  {
    match found
    case None => Returned(params, addToNavigation, KeepUseAutoItem)
    case Some(NotInNavigation) => Returned(params, false, KeepUseAutoItem)
    case Some(UrlValue(value)) => Returned(params[UrlKey := [value]], addToNavigation, SetUseAutoItem(segment))
    case Some(MissingModel(name)) => UnknownModel(name)
  }

  /** The whole decision of the hook, given the scanned map. */
  function DecideV2(detected: Assoc, g: Globals, models: map<string, MetaModel>,
                    params: map<string, seq<string>>, language: string, addToNavigation: bool,
                    request: string, addLanguageToUrl: bool): (r: HookResult)
    ensures r != Returned(params, addToNavigation, KeepUseAutoItem) ==> !AliasMissing(g.alias)
  {
    if AliasMissing(g.alias) then Returned(params, addToNavigation, KeepUseAutoItem)
    else
      var pairs := ApplyOverrides(detected, g.overrides);
      Conclude(FirstResult(pairs, PairResolverV2(models, g.alias.value, g.language, language)),
               params, addToNavigation, FirstSegment(request, addLanguageToUrl))
  }

  /** One pass of the loop body: None where the source `continue`s, else what
      decides the hook's return. */
  method ResolveOneV2(pair: Entry, models: map<string, MetaModel>, alias: string, current: string,
                      language: string) returns (found: Option<PairResult>)
    ensures found == ResolvePairV2(pair, models, alias, current, language)
  {
    if pair.key !in models {
      return Some(MissingModel(pair.key));
    }
    var metaModel := models[pair.key];
    if pair.value !in metaModel.attributes || !metaModel.attributes[pair.value].translated {
      return None;
    }
    var attribute := metaModel.attributes[pair.value];
    var ids := attribute.search(alias, [current]);
    if |ids| < 1 {
      return None;
    }
    var attributeData := attribute.data(ids, language);
    if attributeData.None? {
      return Some(NotInNavigation);
    }
    return Some(UrlValue(attributeData.value));
  }

  /** The loop over model/attribute pairs, returning as the source does. */
  method ResolvePairs(pairs: seq<Entry>, models: map<string, MetaModel>, alias: string, current: string,
                      language: string, params: map<string, seq<string>>, addToNavigation: bool,
                      uri: seq<string>) returns (result: HookResult)
    ensures result == Conclude(FirstResult(pairs, PairResolverV2(models, alias, current, language)),
                               params, addToNavigation, if uri == [] then None else Some(uri[0]))
  {
    ghost var resolve := PairResolverV2(models, alias, current, language);
    var i := 0;
    while i < |pairs|
      invariant 0 <= i <= |pairs|
      invariant FirstResult(pairs, resolve) == FirstResult(pairs[i..], resolve)
    {
      var pair := pairs[i];
      FirstResultStep(pairs, i, resolve);
      var found := ResolveOneV2(pair, models, alias, current, language);
      assert found == resolve(pair);
      i := i + 1;
      if found.Some? {
        match found.value
        case MissingModel(name) =>
          return UnknownModel(name);
        case NotInNavigation =>
          return Returned(params, false, KeepUseAutoItem);
        case UrlValue(value) =>
          var segment := if uri == [] then None else Some(uri[0]);
          return Returned(params[UrlKey := [value]], addToNavigation, SetUseAutoItem(segment));
      }
    }
    return Returned(params, addToNavigation, KeepUseAutoItem);
  }

  /** The hook as the source runs it; `request` is the request path and
      `addLanguageToUrl` the configuration flag of that name. */
  method TranslateUrlsV2(ctx: PageContext, g: Globals, models: map<string, MetaModel>,
                         params: map<string, seq<string>>, language: string, addToNavigation: bool,
                         request: string, addLanguageToUrl: bool) returns (result: HookResult)
    ensures result == DecideV2(Scan(ctx), g, models, params, language, addToNavigation, request, addLanguageToUrl)
  {
    var fullUri := BeforeFirst(RemoveAll(request, IndexFragment), '?');
    var uri := Split(fullUri, '/');
    if addLanguageToUrl {
      uri := uri[1..];
    }
    assert uri == UriSegments(request, addLanguageToUrl);
    if AliasMissing(g.alias) {
      return Returned(params, addToNavigation, KeepUseAutoItem);
    }
    var currentMetaModels := GetCurrentMetamodels(ctx);
    var pairs := ApplyOverrides(currentMetaModels, g.overrides);
    result := ResolvePairs(pairs, models, g.alias.value, g.language, language, params, addToNavigation, uri);
  }

  /** No alias: the parameters come back as given and nothing else changes. */
  lemma NoAliasUnchanged(detected: Assoc, g: Globals, models: map<string, MetaModel>,
                         params: map<string, seq<string>>, language: string, addToNavigation: bool,
                         request: string, addLanguageToUrl: bool)
    requires AliasMissing(g.alias)
    ensures DecideV2(detected, g, models, params, language, addToNavigation, request, addLanguageToUrl)
         == Returned(params, addToNavigation, KeepUseAutoItem)
  {
  }

  /** A pair is passed over exactly when its attribute is absent or untranslated,
      or the search for the alias in the current language alone finds no id; a
      pair that is not passed over reads its data in the requested language alone. */
  lemma PairResolutionV2(pair: Entry, models: map<string, MetaModel>, alias: string,
                         current: string, language: string)
    ensures ResolvePairV2(pair, models, alias, current, language).None? <==>
              pair.key in models &&
              var mm := models[pair.key];
              (pair.value !in mm.attributes || !mm.attributes[pair.value].translated
               || |mm.attributes[pair.value].search(alias, [current])| == 0)
    ensures ResolvePairV2(pair, models, alias, current, language).Some? && pair.key in models ==>
              var attribute := models[pair.key].attributes[pair.value];
              var data := attribute.data(attribute.search(alias, [current]), language);
              ResolvePairV2(pair, models, alias, current, language)
                == Some(if data.None? then NotInNavigation else UrlValue(data.value))
  {
  }

  /** Nothing but the `url` parameter ever changes, and it becomes a one-element
      list; a cleared `addToNavigation` comes with the parameters unchanged and
      no configuration write; with no qualifying pair nothing changes at all. */
  lemma OnlyUrlChanges(detected: Assoc, g: Globals, models: map<string, MetaModel>,
                       params: map<string, seq<string>>, language: string, addToNavigation: bool,
                       request: string, addLanguageToUrl: bool)
    ensures var result := DecideV2(detected, g, models, params, language, addToNavigation, request, addLanguageToUrl);
            result.Returned? ==>
              && (forall k :: k != UrlKey ==> (k in result.params <==> k in params))
              && (forall k :: k != UrlKey && k in params ==> result.params[k] == params[k])
              && (result.params == params || (UrlKey in result.params && |result.params[UrlKey]| == 1))
              && (result.addToNavigation != addToNavigation ==>
                    !result.addToNavigation && result.params == params && result.useAutoItem == KeepUseAutoItem)
    ensures !AliasMissing(g.alias) &&
            (var pairs := ApplyOverrides(detected, g.overrides);
             forall i :: 0 <= i < |pairs| ==> ResolvePairV2(pairs[i], models, g.alias.value, g.language, language).None?)
            ==> DecideV2(detected, g, models, params, language, addToNavigation, request, addLanguageToUrl)
                == Returned(params, addToNavigation, KeepUseAutoItem)
  {
    if !AliasMissing(g.alias) {
      var pairs := ApplyOverrides(detected, g.overrides);
      var found := FirstResult(pairs, PairResolverV2(models, g.alias.value, g.language, language));
      if found.Some? && found.value.UrlValue? {
        var p := params[UrlKey := [found.value.value]];
        assert forall k :: k != UrlKey ==> (k in p <==> k in params);
      }
      if forall i :: 0 <= i < |pairs| ==> ResolvePairV2(pairs[i], models, g.alias.value, g.language, language).None? {
        forall i | 0 <= i < |pairs|
          ensures PairResolverV2(models, g.alias.value, g.language, language)(pairs[i]).None?
        {
        }
      }
    }
  }

  /** A first qualifying pair with no data in the requested language clears
      `addToNavigation` and hands the parameters back unchanged. */
  lemma MissingDataClearsFlag(detected: Assoc, g: Globals, models: map<string, MetaModel>,
                              params: map<string, seq<string>>, language: string, addToNavigation: bool,
                              request: string, addLanguageToUrl: bool)
    requires !AliasMissing(g.alias)
    requires FirstResult(ApplyOverrides(detected, g.overrides),
                         PairResolverV2(models, g.alias.value, g.language, language)) == Some(NotInNavigation)
    ensures DecideV2(detected, g, models, params, language, addToNavigation, request, addLanguageToUrl)
         == Returned(params, false, KeepUseAutoItem)
  {
  }

  /** A first pair whose model name the factory does not know ends the hook with
      the call on `null`, whatever follows it. */
  lemma UnknownModelIsFatal(detected: Assoc, g: Globals, models: map<string, MetaModel>,
                            params: map<string, seq<string>>, language: string, addToNavigation: bool,
                            request: string, addLanguageToUrl: bool, name: string)
    requires !AliasMissing(g.alias)
    requires FirstResult(ApplyOverrides(detected, g.overrides),
                         PairResolverV2(models, g.alias.value, g.language, language)) == Some(MissingModel(name))
    ensures DecideV2(detected, g, models, params, language, addToNavigation, request, addLanguageToUrl)
         == UnknownModel(name)
    ensures name !in models
  {
    var pairs := ApplyOverrides(detected, g.overrides);
    var resolve := PairResolverV2(models, g.alias.value, g.language, language);
    var i :| 0 <= i < |pairs| && resolve(pairs[i]) == Some(MissingModel(name));
    assert ResolvePairV2(pairs[i], models, g.alias.value, g.language, language) == Some(MissingModel(name));
  }

  /** A matching pair sets `url` to the value and writes the request's first
      (language-stripped) path segment to `useAutoItem`. */
  lemma MatchRewritesUrl(detected: Assoc, g: Globals, models: map<string, MetaModel>,
                         params: map<string, seq<string>>, language: string, addToNavigation: bool,
                         request: string, addLanguageToUrl: bool, value: string)
    requires !AliasMissing(g.alias)
    requires FirstResult(ApplyOverrides(detected, g.overrides),
                         PairResolverV2(models, g.alias.value, g.language, language)) == Some(UrlValue(value))
    ensures DecideV2(detected, g, models, params, language, addToNavigation, request, addLanguageToUrl)
         == Returned(params[UrlKey := [value]], addToNavigation, SetUseAutoItem(FirstSegment(request, addLanguageToUrl)))
  {
  }
}

=== FILE: translate_v3.dfy ===
/**
 * translateMMUrlsV3: the handler of the changelanguage navigation event. The
 * changes it can make to the event are the values of `NavigationChange`.
 */
module TranslateV3 {
  import opened Wrappers
  import opened Php
  import opened DataLayer
  import opened Request
  import opened CurrentMetamodels

  /** What the handler does to the navigation event. */
  datatype NavigationChange =
    | Unchanged                   // the event keeps what the extension built
    | SetItems(value: string)     // setUrlAttribute('items', value)
    | SkipInNavigation            // skipInNavigation()
    | TargetParentPage            // setTargetPage(parent of the current target page, false)
    | UnknownModel(name: string)  // getMetaModel gave null: the call on it is a fatal error
    | UntranslatedPublished(name: string)  // `published` is no ITranslated: getTranslatedDataFor on it is a fatal error

  /** The published flag in the target language, else in the fallback
      language, is present and false. */
  predicate UnpublishedFor(mm: MetaModel, ids: seq<Id>, target: string)
    requires Published in mm.attributes
  {
    var flag := DataWithFallback(mm.attributes[Published], ids, target, mm.fallbackLanguage);
    flag.Some? && !Truthy(flag.value)
  }

  /** One pass of the loop over model/attribute pairs; None is `continue`. */
  function ResolvePair(pair: Entry, models: map<string, MetaModel>, alias: string,
                       current: string, target: string): Option<NavigationChange>
  {
    if pair.key !in models then Some(UnknownModel(pair.key))
    else
      var mm := models[pair.key];
      if pair.value !in mm.attributes || !mm.attributes[pair.value].translated then None
      else
        var attribute := mm.attributes[pair.value];
        var ids := attribute.search(alias, [mm.fallbackLanguage, current]);
        if |ids| < 1 then None
        else if Published in mm.attributes && !mm.attributes[Published].translated then Some(UntranslatedPublished(pair.key))
        else if Published in mm.attributes && UnpublishedFor(mm, ids, target) then Some(TargetParentPage)
        else match DataWithFallback(attribute, ids, target, mm.fallbackLanguage)
          case None => Some(SkipInNavigation)
          case Some(value) => Some(SetItems(value))
  }

  /** ResolvePair with everything but the pair fixed, as the loop uses it. */
  function PairResolver(models: map<string, MetaModel>, alias: string, current: string,
                        target: string): Entry -> Option<NavigationChange>
  {
    pair => ResolvePair(pair, models, alias, current, target)
  }

  /** The whole decision of the handler, given the scanned map. */
  function DecideV3(detected: Assoc, g: Globals, models: map<string, MetaModel>, target: string): (r: NavigationChange)
    ensures r != Unchanged ==> detected != [] && !AliasMissing(g.alias)
  {
    if detected == [] || AliasMissing(g.alias) then Unchanged
    else if target == g.language then SetItems(g.alias.value)
    else
      var pairs := ApplyOverrides(detected, g.overrides);
      match FirstResult(pairs, PairResolver(models, g.alias.value, g.language, target))
      case None => Unchanged
      case Some(change) => change
  }

  /** One pass of the loop body: None where the source `continue`s, the change
      where it returns. */
  method ResolveOne(pair: Entry, models: map<string, MetaModel>, alias: string,
                    current: string, target: string) returns (change: Option<NavigationChange>)
    ensures change == ResolvePair(pair, models, alias, current, target)
  {
    if pair.key !in models {
      return Some(UnknownModel(pair.key));
    }
    var metaModel := models[pair.key];
    if pair.value !in metaModel.attributes || !metaModel.attributes[pair.value].translated {
      return None;
    }
    var attribute := metaModel.attributes[pair.value];
    var languages := [current];
    var fallbackLanguage := metaModel.fallbackLanguage;
    languages := [fallbackLanguage] + languages;
    assert languages == [fallbackLanguage, current];
    var ids := attribute.search(alias, languages);
    if |ids| < 1 {
      return None;
    }
    if Published in metaModel.attributes {
      var published := metaModel.attributes[Published];
      if !published.translated {
        // the model's `published` cannot give translated data
        return Some(UntranslatedPublished(pair.key));
      }
      var publishedData := published.data(ids, target);
      if publishedData.None? {
        publishedData := published.data(ids, fallbackLanguage);
      }
      if publishedData.Some? && !Truthy(publishedData.value) {
        // a present, falsy flag: the event is retargeted, `items` is left alone
        assert UnpublishedFor(metaModel, ids, target);
        return Some(TargetParentPage);
      }
    }
    var attributeData := attribute.data(ids, target);
    if attributeData.None? {
      attributeData := attribute.data(ids, fallbackLanguage);
    }
    if attributeData.None? {
      return Some(SkipInNavigation);
    } else {
      return Some(SetItems(attributeData.value));
    }
  }

  /** The loop over model/attribute pairs: the first pair's change, or None. */
  method FirstChange(pairs: seq<Entry>, models: map<string, MetaModel>, alias: string,
                     current: string, target: string) returns (change: Option<NavigationChange>)
    ensures change == FirstResult(pairs, PairResolver(models, alias, current, target))
  {
    ghost var resolve := PairResolver(models, alias, current, target);
    var i := 0;
    while i < |pairs|
      invariant 0 <= i <= |pairs|
      invariant FirstResult(pairs, resolve) == FirstResult(pairs[i..], resolve)
    {
      var pair := pairs[i];
      FirstResultStep(pairs, i, resolve);
      var found := ResolveOne(pair, models, alias, current, target);
      assert found == resolve(pair);
      i := i + 1;
      if found.Some? {
        return found;
      }
    }
    return None;
  }

  /** The handler as the source runs it, with the event's root page language as `target`. */
  method TranslateUrlsV3(ctx: PageContext, g: Globals, models: map<string, MetaModel>, target: string)
    returns (change: NavigationChange)
    ensures change == DecideV3(Scan(ctx), g, models, target)
  {
    var currentMetaModels := GetCurrentMetamodels(ctx);
    if currentMetaModels == [] {
      return Unchanged;
    }
    if AliasMissing(g.alias) {
      return Unchanged;
    }
    var alias := g.alias.value;
    if target == g.language {
      // same language: only `items` changes, to the alias
      return SetItems(alias);
    }
    var pairs := ApplyOverrides(currentMetaModels, g.overrides);
    var found := FirstChange(pairs, models, alias, g.language, target);
    change := if found.Some? then found.value else Unchanged;
  }

  /** No detected model or no alias: the event is untouched, whatever the
      configured overrides say, since both checks come before the merge. */
  lemma NoModelsOrNoAliasIsNoop(detected: Assoc, g: Globals, models: map<string, MetaModel>, target: string)
    requires detected == [] || AliasMissing(g.alias)
    ensures DecideV3(detected, g, models, target) == Unchanged
  {
  }

  /** Target language equal to the current one: `items` is set to the alias and
      no model is looked up, so the outcome is the same for any models. */
  lemma SameLanguageSetsAlias(detected: Assoc, g: Globals, models: map<string, MetaModel>,
                              others: map<string, MetaModel>, target: string)
    requires detected != [] && !AliasMissing(g.alias) && target == g.language
    ensures DecideV3(detected, g, models, target) == SetItems(g.alias.value)
    ensures DecideV3(detected, g, others, target) == DecideV3(detected, g, models, target)
  {
  }

  /** A pair is passed over exactly when its model has the attribute untranslated
      or absent, or the search for the alias in [fallback, current] finds no id. */
  lemma PassedOverPairs(pair: Entry, models: map<string, MetaModel>, alias: string, current: string, target: string)
    ensures ResolvePair(pair, models, alias, current, target).None? <==>
              pair.key in models &&
              var mm := models[pair.key];
              (pair.value !in mm.attributes || !mm.attributes[pair.value].translated
               || |mm.attributes[pair.value].search(alias, [mm.fallbackLanguage, current])| == 0)
    ensures ResolvePair(pair, models, alias, current, target) != Some(Unchanged)
  {
  }

  /** For a pair that is not passed over: a `published` attribute that is not
      translated ends the handler with the failed call on it; otherwise the
      published flag is read in the target language, else the fallback one, and a
      false flag retargets to the parent page without setting `items`; otherwise
      the value is read in the target language, else the fallback one, and its
      absence skips the item. */
  lemma PublishedAndValueResolution(pair: Entry, models: map<string, MetaModel>, alias: string,
                                    current: string, target: string)
    requires pair.key in models
    requires pair.value in models[pair.key].attributes && models[pair.key].attributes[pair.value].translated
    requires var mm := models[pair.key];
             |mm.attributes[pair.value].search(alias, [mm.fallbackLanguage, current])| > 0
    ensures var mm := models[pair.key];
            var attribute := mm.attributes[pair.value];
            var ids := attribute.search(alias, [mm.fallbackLanguage, current]);
            var fatal := Published in mm.attributes && !mm.attributes[Published].translated;
            var unpublished := Published in mm.attributes &&
                               (var p := mm.attributes[Published];
                                if p.data(ids, target).Some? then !Truthy(p.data(ids, target).value)
                                else p.data(ids, mm.fallbackLanguage).Some? && !Truthy(p.data(ids, mm.fallbackLanguage).value));
            var value := if attribute.data(ids, target).Some? then attribute.data(ids, target)
                         else attribute.data(ids, mm.fallbackLanguage);
            ResolvePair(pair, models, alias, current, target)
              == Some(if fatal then UntranslatedPublished(pair.key)
                      else if unpublished then TargetParentPage
                      else if value.None? then SkipInNavigation
                      else SetItems(value.value))
  {
  }

  /** First match over the merged pairs: the event is unchanged exactly when no
      pair qualifies; otherwise the outcome is that of the first qualifying pair,
      all pairs before it having been passed over. */
  lemma FirstQualifyingPairDecides(detected: Assoc, g: Globals, models: map<string, MetaModel>, target: string)
    requires detected != [] && !AliasMissing(g.alias) && target != g.language
    ensures var pairs := ApplyOverrides(detected, g.overrides);
            var change := DecideV3(detected, g, models, target);
            && (change == Unchanged <==>
                  forall i :: 0 <= i < |pairs| ==> ResolvePair(pairs[i], models, g.alias.value, g.language, target).None?)
            && (change != Unchanged ==>
                  exists i :: 0 <= i < |pairs|
                    && ResolvePair(pairs[i], models, g.alias.value, g.language, target) == Some(change)
                    && forall j :: 0 <= j < i ==> ResolvePair(pairs[j], models, g.alias.value, g.language, target).None?)
  {
    var pairs := ApplyOverrides(detected, g.overrides);
    var resolve := PairResolver(models, g.alias.value, g.language, target);
    var r := FirstResult(pairs, resolve);
    if r.Some? {
      PassedOverPairs(pairs[0], models, g.alias.value, g.language, target);
      var i :| 0 <= i < |pairs| && resolve(pairs[i]) == r && forall j :: 0 <= j < i ==> resolve(pairs[j]).None?;
      PassedOverPairs(pairs[i], models, g.alias.value, g.language, target);
    }
  }

  /** Pairs after the first qualifying one are never consulted: whatever follows
      it, the outcome is the same. */
  lemma LaterPairsIgnored(pairs: seq<Entry>, rest: seq<Entry>, models: map<string, MetaModel>,
                          alias: string, current: string, target: string)
    requires FirstResult(pairs, PairResolver(models, alias, current, target)).Some?
    ensures FirstResult(pairs + rest, PairResolver(models, alias, current, target))
         == FirstResult(pairs, PairResolver(models, alias, current, target))
  {
    FirstResultIgnoresRest(pairs, rest, PairResolver(models, alias, current, target));
  }
}

=== FILE: wrappers.dfy ===
/** An optional value: `None` stands for PHP's `null` / `false` "not found". */
module Wrappers {

  datatype Option<+T> = None | Some(value: T)
}
